=== FILE: README.md ===
# Vector-Globe dot engine, modelled in Dafny

This project models the integer and rational core of the globe's dot engine
in `GlobeView.swift`: the controller that samples points on a sphere
(`generateTextureMap`), classifies each sample as land by reading the world-map
image (`getPixelColor` and the 0.03 threshold), keeps the land dots plus the
dot nearest to the current location (`setupDotGeometry`), finds that nearest
dot (`closestDotPosition`, `distanceBetweenPoints`,
`getEquirectangularProjectionPosition`), and caches the texture map
(`moveToLocation`, `setupDotGeometry`).

Modules, one per component:

- `Wrappers`: the `Option` type for the nil-able cache, highlight and lookup.
- `Pixels`: pixels, texture-map entries (`MapDot`), the RGBA image buffer,
  the byte offset `((W*y)+x)*4` and the land test.
- `Projection`: the linear longitude/latitude to image map, its inverse, and
  Swift's truncating `Int(_:)`.
- `Sampler`: the latitude row `y_i = 1 - 2i/(dots-1)` in exact `real`
  arithmetic, and the texture map with its generating loop. The cosine/sine
  of the golden angle and the asin/atan2 projection are the parameters of a
  `Trig` value (index to horizontal components, index to pixel).
- `Locator`: the `min(by:)` fold over squared pixel distances, and the
  `first(where:)` pixel lookup.
- `Selection`: the dot-selection loop as a filter and as a loop method.
- `Cache`: `viewModel.textureMap` as an `Option<seq<MapDot>>` state, with
  `setupDotGeometry` and `moveToLocation` as transitions.

Facts about `GlobeView.swift` that shape the model:

- `closestDotPosition` returns (0, 0) on an empty map (GlobeView.swift:498).
- `viewModel.textureMap` is built once and then reused whatever the dot
  count or radius (GlobeView.swift:127, GlobeView.swift:269).
- A single dot divides 0 by 0 at GlobeView.swift:440, and the NaN then traps
  in `Int(_:)`. `getPixelColor` reads the buffer without a bounds check
  (GlobeView.swift:518-524). An empty map traps the `0...count-1` range
  (GlobeView.swift:298). None of these has an error value in the code, so
  each is a precondition here: `CanBuild` (`dots != 1`), `InImage` plus a
  well-formed buffer (`PixelColor`), and `|m| >= 1` (`PlaceDots`).
- The query pixel uses the world image's size (GlobeView.swift:505-506),
  but the sampler's pixels are fixed at 2048×1024 (GlobeView.swift:452-453).
  The model uses one image size for both.
- The south-pole sample is projected one row below the image (see
  "## Findings"). The model's texture map clamps each pixel into the image.

Distances: the source compares `sqrt(dx*dx + dy*dy)`. The model compares the
integer `dx*dx + dy*dy`. `Locator.SqrtOrderAgrees` proves that `<` on
non-negative square roots agrees with `<` on their squares, so both
comparisons pick the same entry.

## Model

| member | source | states |
|---|---|---|
| Pixels.PixelOffset | GlobeView.swift:519 | the byte offset ((W·y)+x)·4 of a pixel's red channel; its properties are the three lemmas below |
| Pixels.ClampPixel | GlobeView.swift:451-455 | the clamped pixel is inside the image, equals the input when that is already inside, and maps row H to row H-1 in the same column |
| Pixels.OffsetInBounds | GlobeView.swift:517-524 | for 0 ≤ x < W and 0 ≤ y < H, the offset is ≥ 0 and offset+3 < 4·W·H, so all four channel reads are inside the buffer |
| Pixels.OffsetInjective | GlobeView.swift:519 | two distinct in-image pixels never share a byte offset |
| Pixels.OffsetDecodes | GlobeView.swift:519 | the offset is a multiple of 4, and offset/4 decodes back to column x (mod W) and row y (div W) |
| Pixels.PixelColor | GlobeView.swift:517-527 | an in-image pixel of a buffer holding 4·W·H bytes yields four channels, each in [0, 1] |
| Pixels.ChannelBelowThreshold | GlobeView.swift:283 | a byte divided by 255 is below the 0.03 threshold exactly when the byte is ≤ 7 |
| Pixels.IsLand | GlobeView.swift:332 | red, green and blue all below 0.03; see the lemma below |
| Pixels.LandIffDarkBytes | GlobeView.swift:332 | a pixel is land exactly when its red, green and blue bytes are all ≤ 7; alpha plays no part |
| Projection.EquirectangularPosition | GlobeView.swift:502-515 | the linear image point of a coordinate; its properties are the range, monotonicity and round-trip lemmas below |
| Projection.QueryPixel | GlobeView.swift:489-490 | the truncated query pixel; see QueryPixelInImage |
| Projection.TruncateToInt | GlobeView.swift:490 | `Int(_:)` truncates toward zero: t ≤ r < t+1 for r ≥ 0, and t-1 < r ≤ t for r < 0 |
| Projection.LongitudeRange | GlobeView.swift:508-511 | longitude -180 maps to x = 0, and longitudes in [-180, 180) map into [0, W) |
| Projection.LatitudeRange | GlobeView.swift:512-513 | latitude 90 maps to y = 0 and -90 to y = H; latitudes in [-90, 90] map into [0, H] |
| Projection.ProjectionMonotone | GlobeView.swift:508-513 | x strictly increases with longitude and y strictly decreases with latitude |
| Projection.ProjectionRoundTrip | GlobeView.swift:502-515 | projecting a coordinate and applying the inverse linear map recovers it exactly |
| Projection.QueryPixelInImage | GlobeView.swift:489-490 | a coordinate with longitude in [-180, 180) and latitude in (-90, 90] truncates to a pixel inside the image |
| Sampler.ProjectRow | GlobeView.swift:473-479 | the row `Int(H/π·(π/2 - θ))` of `equirectangularProjection` for θ = asin(y), with π a parameter; see SouthPoleReadsPastBuffer |
| Sampler.SampleAsWritten | GlobeView.swift:440-455 | entry i as the source builds it: position (r·x, r·y_i, r·z) and the projected pixel stored unchecked |
| Sampler.TextureMapAsWritten | GlobeView.swift:433-459 | `generateTextureMap` as written: one unchecked entry per index, in sampling order |
| Sampler.Sample | GlobeView.swift:440-455 | entry i with the same position and its pixel clamped into the image (the corrected half of Findings) |
| Sampler.TextureMap | GlobeView.swift:433-459 | the map has exactly `dots` entries, and every entry's pixel (clamped, see Findings) lies inside the image |
| Sampler.GenerateTextureMap | GlobeView.swift:433-459 | the append loop produces exactly the texture map: one entry per index, in sampling order, pixels clamped into the image |
| Sampler.SouthPoleReadsPastBuffer | GlobeView.swift:477 | as written, the south-pole entry has row v = H, lies outside the image, and its pixel offset is ≥ 4·W·H, past the buffer |
| Sampler.SouthPoleClamped | GlobeView.swift:477 | with the clamp, the south-pole entry reads row H-1 of the same column, inside the image |
| Sampler.ClampOnlyOutside | GlobeView.swift:447-455 | the clamped map keeps every position of the map as written, and every entry whose projected pixel is already inside the image is unchanged |
| Sampler.LatitudeRow | GlobeView.swift:440 | the height 1 - 2i/(dots-1) of row i; its properties are the three lemmas below |
| Sampler.RowEndpoints | GlobeView.swift:440 | y_0 = 1 and y_(dots-1) = -1 |
| Sampler.RowStrictlyDecreasing | GlobeView.swift:440 | i < j implies y_i > y_j |
| Sampler.RowInRange | GlobeView.swift:440 | every y_i with i < dots lies in [-1, 1] |
| Sampler.TextureMapShape | GlobeView.swift:438-458 | for dots ≥ 2 the map has exactly `dots` entries; heights run from +radius down to -radius, strictly decreasing; entry i samples the projected pixel of sample i, clamped into the image |
| Sampler.SamplesOnSphere | GlobeView.swift:441-449 | if the horizontal part lies on its row's circle, every position has squared length radius² |
| Locator.SqDist | GlobeView.swift:482-486 | the squared pixel distance, compared in place of its square root (see SqrtOrderAgrees) |
| Locator.SqrtOrderAgrees | GlobeView.swift:482-486 | for non-negative roots, r1 < r2 exactly when r1² < r2², so comparing squared distances orders entries as the `sqrt` distances do |
| Locator.FirstNearestUnique | GlobeView.swift:493-496 | at most one index is the first nearest entry, so the search result is determined |
| Locator.MinFold | GlobeView.swift:493-496 | the fold that replaces the current best only with a strictly closer entry ends at the first nearest entry of the whole map |
| Locator.NearestIndex | GlobeView.swift:493-496 | on a non-empty map, `min(by:)` returns an entry no other entry is strictly closer than, and every earlier entry is strictly farther |
| Locator.ClosestDotPosition | GlobeView.swift:488-499 | an empty map yields (0, 0); otherwise the result is the pixel of some entry, and its squared distance to the query pixel is ≤ that of every entry |
| Locator.ClosestIsFirstMinimal | GlobeView.swift:493-498 | ties go to the earliest entry: the result is the first nearest entry's pixel, and all earlier entries are strictly farther |
| Locator.FirstIndexFrom | GlobeView.swift:131 | the search finds nothing exactly when no entry from k on has the pixel; otherwise it finds the first entry that does |
| Locator.FirstWhere | GlobeView.swift:131 | `first(where:)` fails exactly when no entry has the pixel; otherwise the found entry is the first entry with the pixel |
| Locator.LookupFindsNearest | GlobeView.swift:129-131 | on a non-empty map the lookup of the nearest pixel always succeeds, and it finds the very entry `min(by:)` chose |
| Selection.Classify | GlobeView.swift:302-337 | the loop body's decision for one entry: a highlight marker when it is on the highlighted pixel, else a land dot when it is land, else nothing |
| Selection.SelectDots | GlobeView.swift:298-337 | the selection has at most as many dots as the map, each one an entry of the map; see the lemmas below for order and membership |
| Selection.SelectionInOrder | GlobeView.swift:298-337 | the selected dots are an order-preserving subsequence of the map: placed dot k is entry idx[k], and the indices strictly increase |
| Selection.SelectionMembership | GlobeView.swift:303-332 | entry i is selected exactly when it is on the highlighted pixel or is land |
| Selection.KeptIndicesBelow | GlobeView.swift:298 | every selected index is an index of the map |
| Selection.SelectionKinds | GlobeView.swift:304-336 | a placed dot is a highlight marker exactly when it is on the highlighted pixel; every other placed dot is land |
| Selection.PlaceDots | GlobeView.swift:295-338 | the loop on a non-empty map produces exactly the selection, and a positions list that matches the selected entries one for one |
| Selection.NearestDotIsPlaced | GlobeView.swift:278-308 | when the highlight is the nearest dot to a location, that entry is selected as a highlight marker, whatever its colour |
| Cache.SetupDotGeometry | GlobeView.swift:268-281 | a stored map is left unchanged; with none stored, the freshly built map is stored; the placed dots are the selection of the stored map with the nearest dot to the location as highlight; with a current location at least one dot is placed |
| Cache.Build | GlobeView.swift:269-270 | the map stored for the configuration is the clamped map (the corrected half of Findings): exactly `dots` entries, all inside the image, so the dot loop can walk it |
| Cache.HighlightFor | GlobeView.swift:274-281 | the highlighted pixel: the nearest dot to the current location when one is known, otherwise none |
| Cache.HighlightIsPlaced | GlobeView.swift:278-308 | with a current location, the selection of a non-empty map is never empty |
| Cache.AsWrittenMapNotDrawable | GlobeView.swift:477 | the map as the source builds it is not walkable: its south-pole entry is outside the image |
| Cache.MoveToLocation | GlobeView.swift:126-144 | a cached map is kept; with no cached map the freshly built one is stored; a camera target exists exactly when the map is non-empty |
| Cache.MoveCentresOnNearest | GlobeView.swift:126-141 | for a non-empty cached map, or a fresh map of at least two dots, the camera target is the position of the entry `min(by:)` chose |
| Cache.SetupIdempotent | GlobeView.swift:269-271 | a second setup reuses the stored map and places the same dots |
| Cache.SetupAfterMoveReuses | GlobeView.swift:269-271 | after `moveToLocation` has stored a map, `setupDotGeometry` keeps that map instead of building another |

## Findings

| source | as written | input that shows it | evidently intended | confidence | as-written member | corrected member |
|---|---|---|---|---|---|---|
| GlobeView.swift:477 | the last sample has y = -1, so asin gives -π/2 and the row is H/π·π = H, one past the last row; GlobeView.swift:519 then reads from byte 4·W·H + 4u on, past the buffer (for some dot counts atan2(+0, -0) = π also puts the column at u = W, further past) | any dots ≥ 2, sample i = dots-1 (with the 2048×1024 map, v = 1024) | the row clamped into [0, H-1], so every pixel read is inside the image (`Sampler.SouthPoleClamped`) | not executed; the exact-arithmetic value is proved, the double value 1024.0 is by hand | Sampler.SouthPoleReadsPastBuffer | Sampler.TextureMap |

## Left out

- Trigonometry: `equirectangularProjection` (asin/atan2), the cos/sin of the golden angle and `sqrt(1 - y²)` are parameters of `Sampler.Trig`. Their real-number behaviour is not modelled.
- Floating point: Double/Float rounding, NaN and `Int(_:)` trapping on huge or non-finite values. The linear maps and the latitude row are exact rationals.
- Sampler.SamplesOnSphere: assumes the cos² + sin² = 1 identity of the horizontal part, because trigonometry is not modelled.
- Cache.Build: stores the clamped map, whose south-pole pixel is at row H-1, where GlobeView.swift:269-270 store the unclamped map with that pixel at row H (see Findings); `Sampler.ClampOnlyOutside` shows that positions never differ and that every entry whose projected pixel is inside the image is the same.
- Cache.SetupDotGeometry: requires every cached pixel inside the image. The source's own map breaks this at the south pole (see Findings), so the model draws the clamped map.
- Cache.MoveToLocation: searches and stores the clamped map, where GlobeView.swift:135-142 search and store the unclamped one; near the south pole the dot `min(by:)` chooses, and so the camera target, can differ from the source's.
- Cache.MoveCentresOnNearest: states the target for the clamped map, for the same reason; it does not describe the source's choice near the south pole.
- Selection.PlaceDots: requires every pixel inside the image, as Cache.SetupDotGeometry does; the out-of-buffer read the source makes is not modelled.
- `convertVectorToGlobeCoordinate`, `getEulerAngles` and the `SCNVector3`/`SCNQuaternion` extensions: trigonometric helpers, not part of this model.
- `handleTap`: the hexagonal-cell indexing it calls is an external library.
- Scene, camera, particle, lighting and material setup, `centerCameraOnDot`, `zoomIn`, and the node geometry built for each placed dot: rendering only. The model reports the camera target and the kind of each placed dot instead.
- Loading the image asset and getting its `CFData`: the buffer is the `Image` parameter. The channel order is taken to be RGBA, as the source reads it.
- The `DispatchQueue.main.async` hand-off of the point cloud: concurrency and UI.
- The colour `didSet` handlers, including the swapped emission wiring: configuration only.
- EarthNode.swift is not part of this model.

=== FILE: cache.dfy ===
/** The texture-map cache of the globe controller (GlobeView.swift,
    `moveToLocation` and `setupDotGeometry`): a map that is either absent or
    built once and then reused. */
module Cache {
  import opened Wrappers
  import opened Pixels
  import opened Projection
  import opened Sampler
  import opened Locator
  import opened Selection

  /** The controller's configuration: dot count, sphere radius, the sampler's
      trigonometric collaborators and the world-map image. */
  datatype Globe = Globe(dots: nat, radius: real, trig: Trig, image: Image)

  /** `viewModel.textureMap`: nil until some operation builds it. */
  type TextureCache = Option<seq<MapDot>>

  /** What building a texture map needs: not exactly one dot (the row
      formula divides by `dots - 1`), and a non-empty image to clamp into. */
  predicate CanBuild(g: Globe) {
    g.dots != 1 && g.image.width > 0 && g.image.height > 0
  }

  /** What building a map that `setupDotGeometry` can walk needs: at least
      two dots, so the loop's range is not empty, and a buildable image. */
  predicate ReadyToDraw(g: Globe) {
    g.dots >= 2 && CanBuild(g)
  }

  /** A cached map the dot loop can walk: non-empty, every pixel readable. */
  predicate Drawable(cache: TextureCache, img: Image) {
    cache.Some? ==> |cache.value| > 0 && AllInImage(cache.value, img)
  }

  /** The map `generateTextureMap` builds for this configuration: `dots`
      entries, every one readable from the image. */
  function Build(g: Globe): (m: seq<MapDot>)
    requires CanBuild(g)
    ensures |m| == g.dots && AllInImage(m, g.image)
  {
    TextureMap(g.dots, g.radius, g.trig, g.image.width, g.image.height)
  }

  /** The highlighted pixel: the nearest dot to the current location, if one
      is known. */
  function HighlightFor(location: Option<GeoCoordinate>, m: seq<MapDot>, img: Image): Option<Pixel> {
    match location
    case Some(c) => Some(ClosestDotPosition(c, m, img.width, img.height))
    case None => None
  }

  datatype Setup = Setup(cache: TextureCache, placed: seq<PlacedDot>)

  /** `setupDotGeometry`: build the map only when none is cached, then place
      every entry of the stored map that is the nearest dot to the current
      location (when one is known) or land. */
  function SetupDotGeometry(cache: TextureCache, g: Globe, location: Option<GeoCoordinate>): (r: Setup)
    requires g.image.WellFormed() && Drawable(cache, g.image)
    requires cache.None? ==> ReadyToDraw(g)
    ensures cache.Some? ==> r.cache == cache
    ensures cache.None? ==> r.cache == Some(Build(g))
    ensures r.cache.Some? && Drawable(r.cache, g.image)
    ensures r.placed == SelectDots(r.cache.value, HighlightFor(location, r.cache.value, g.image), g.image)
    ensures location.Some? ==> |r.placed| > 0
  {
    var stored := if cache.None? then Some(Build(g)) else cache;
    var m := stored.value;
    HighlightIsPlaced(location, m, g.image);
    Setup(stored, SelectDots(m, HighlightFor(location, m, g.image), g.image))
  }

  /** With a current location, the selection of a non-empty map is never
      empty: the nearest dot is placed as the highlight marker. */
  lemma HighlightIsPlaced(location: Option<GeoCoordinate>, m: seq<MapDot>, img: Image)
    requires |m| > 0 && img.WellFormed() && AllInImage(m, img)
    ensures location.Some? ==> |SelectDots(m, HighlightFor(location, m, img), img)| > 0
  {
    if location.Some? {
      NearestDotIsPlaced(location.value, m, img);
    }
  }

  /** The map as the source builds it cannot be walked by the dot loop: its
      south-pole entry is outside the image. */
  lemma AsWrittenMapNotDrawable(g: Globe, pi: real)
    requires g.dots >= 2 && pi > 0.0
    requires 0 <= g.trig.project(g.dots - 1).u
    requires g.trig.project(g.dots - 1).v == ProjectRow(-pi / 2.0, g.image.height, pi)
    ensures !Drawable(Some(TextureMapAsWritten(g.dots, g.radius, g.trig)), g.image)
  {
    SouthPoleReadsPastBuffer(g.dots, g.radius, g.trig, g.image.width, g.image.height, pi);
  }

  datatype Move = Move(cache: TextureCache, target: Option<Vec3>)

  /** `moveToLocation`: find the dot nearest to (lat, long) in the cached map,
      or in a freshly built one that is then stored, and report the position
      the camera is centred on, if the `first(where:)` lookup finds one. */
  function MoveToLocation(cache: TextureCache, g: Globe, lat: real, long: real): (r: Move)
    requires cache.None? ==> CanBuild(g)
    ensures cache.Some? ==> r.cache == cache
    ensures cache.None? ==> r.cache == Some(Build(g))
    ensures r.cache.Some?
    ensures r.target.Some? <==> |r.cache.value| > 0
  {
    var place := GeoCoordinate(lat, long);
    var m := if cache.Some? then cache.value else Build(g);
    var dot := ClosestDotPosition(place, m, g.image.width, g.image.height);
    var target :=
      match FirstWhere(m, dot)
      case Some(d) => Some(d.position)
      case None => None;
    Move(Some(m), target)
  }

  /** The camera target is the position of the entry `min(by:)` chose. */
  lemma MoveCentresOnNearest(cache: TextureCache, g: Globe, lat: real, long: real)
    requires cache.Some? ==> |cache.value| > 0
    requires cache.None? ==> ReadyToDraw(g)
    ensures var r := MoveToLocation(cache, g, lat, long);
            var m := r.cache.value;
            var q := QueryPixel(GeoCoordinate(lat, long), g.image.width, g.image.height);
            r.target == Some(m[NearestIndex(m, q)].position)
  {
    var m := MoveToLocation(cache, g, lat, long).cache.value;
    LookupFindsNearest(GeoCoordinate(lat, long), m, g.image.width, g.image.height);
  }

  /** A second setup reuses the map the first one stored and places the same dots. */
  lemma SetupIdempotent(cache: TextureCache, g: Globe, location: Option<GeoCoordinate>)
    requires g.image.WellFormed() && Drawable(cache, g.image)
    requires cache.None? ==> ReadyToDraw(g)
    ensures var first := SetupDotGeometry(cache, g, location);
            SetupDotGeometry(first.cache, g, location) == first
  {
  }

  /** After `moveToLocation` has stored a map, `setupDotGeometry` draws that
      map rather than building another. */
  lemma SetupAfterMoveReuses(cache: TextureCache, g: Globe, lat: real, long: real,
                             location: Option<GeoCoordinate>)
    requires g.image.WellFormed() && Drawable(cache, g.image)
    requires cache.None? ==> ReadyToDraw(g)
    ensures var moved := MoveToLocation(cache, g, lat, long);
            Drawable(moved.cache, g.image) &&
            SetupDotGeometry(moved.cache, g, location).cache == moved.cache
  {
    var moved := MoveToLocation(cache, g, lat, long);
    if cache.None? {
      assert moved.cache.value == Build(g);
    }
  }
}

=== FILE: locator.dfy ===
/** The nearest-dot search of `closestDotPosition` / `distanceBetweenPoints`
    and the `first(where:)` lookup its callers make (GlobeView.swift). */
module Locator {
  import opened Wrappers
  import opened Pixels
  import opened Projection

  /** Squared Euclidean distance between two pixels. The source compares
      `sqrt` of this value; see `SqrtOrderAgrees` for why comparing the
      squares picks the same entry. */
  function SqDist(a: Pixel, b: Pixel): int {
    var dx, dy := b.u - a.u, b.v - a.v;
    dx * dx + dy * dy
  }

  /** `r` is the (non-negative) square root of `a`. */
  ghost predicate IsSqrt(r: real, a: real) {
    0.0 <= r && r * r == a
  }

  /** Comparing square roots is comparing the squares, so the `<` the source
      applies to `sqrt` distances orders entries exactly as `<` on `SqDist`. */
  lemma SqrtOrderAgrees(r1: real, a1: real, r2: real, a2: real)
    requires IsSqrt(r1, a1) && IsSqrt(r2, a2)
    ensures r1 < r2 <==> a1 < a2
  {
    if r1 < r2 {
      MulStrict(r1, r2);
    } else if r2 < r1 {
      MulStrict(r2, r1);
    }
  }

  lemma MulStrict(s: real, t: real)
    requires 0.0 <= s < t
    ensures s * s < t * t
  {
    var d := t - s;
    assert t * t == s * s + 2.0 * (s * d) + d * d;
    assert 0.0 <= s * d;
    assert 0.0 < d * d;
  }

  /** `k` is the entry `min(by:)` reports: nothing in the map is strictly
      closer to `q`, and every earlier entry is strictly farther. */
  ghost predicate IsFirstNearest(m: seq<MapDot>, q: Pixel, k: int) {
    && 0 <= k < |m|
    && (forall j :: 0 <= j < |m| ==> SqDist(q, m[k].At()) <= SqDist(q, m[j].At()))
    && (forall j :: 0 <= j < k ==> SqDist(q, m[k].At()) < SqDist(q, m[j].At()))
  }

  /** At most one entry is the first nearest: `IsFirstNearest` fixes the answer. */
  lemma FirstNearestUnique(m: seq<MapDot>, q: Pixel, k1: int, k2: int)
    requires IsFirstNearest(m, q, k1) && IsFirstNearest(m, q, k2)
    ensures k1 == k2
  {
    assert SqDist(q, m[k1].At()) <= SqDist(q, m[k2].At());
    assert SqDist(q, m[k2].At()) <= SqDist(q, m[k1].At());
  }

  /** The fold `min(by:)` performs: walk from `k`, replacing the current
      best only by a strictly closer entry. */
  function MinFold(m: seq<MapDot>, q: Pixel, k: nat, best: nat): (r: nat)
    requires best < k <= |m|
    requires IsFirstNearest(m[..k], q, best)
    ensures IsFirstNearest(m, q, r)
    decreases |m| - k
  {
    if k == |m| then
      assert m[..k] == m;
      best
    else
      var next := if SqDist(q, m[k].At()) < SqDist(q, m[best].At()) then k else best;
      assert m[..k + 1][..k] == m[..k];
      MinFold(m, q, k + 1, next)
  }

  /** Index of the entry `min(by:)` returns for a non-empty map. */
  function NearestIndex(m: seq<MapDot>, q: Pixel): (k: nat)
    requires |m| > 0
    ensures IsFirstNearest(m, q, k)
  {
    MinFold(m, q, 1, 0)
  }

  /** The pixel of the texture-map entry nearest to `c`, with the query
      projected onto a `width` × `height` image; an empty map yields (0, 0). */
  function ClosestDotPosition(c: GeoCoordinate, m: seq<MapDot>, width: nat, height: nat): (r: Pixel)
    ensures |m| == 0 ==> r == Pixel(0, 0)
    ensures |m| > 0 ==> exists k :: 0 <= k < |m| && m[k].At() == r
    ensures forall j :: 0 <= j < |m| ==>
              SqDist(QueryPixel(c, width, height), r) <= SqDist(QueryPixel(c, width, height), m[j].At())
  {
    if |m| == 0 then Pixel(0, 0)
    else m[NearestIndex(m, QueryPixel(c, width, height))].At()
  }

  /** Ties go to the earliest entry: the reported pixel is that of the unique
      first-nearest entry, and no earlier entry is as close. */
  lemma ClosestIsFirstMinimal(c: GeoCoordinate, m: seq<MapDot>, width: nat, height: nat, k: int)
    requires IsFirstNearest(m, QueryPixel(c, width, height), k)
    ensures ClosestDotPosition(c, m, width, height) == m[k].At()
    ensures forall j :: 0 <= j < k ==>
              SqDist(QueryPixel(c, width, height), m[j].At())
                > SqDist(QueryPixel(c, width, height), ClosestDotPosition(c, m, width, height))
  {
    var q := QueryPixel(c, width, height);
    FirstNearestUnique(m, q, k, NearestIndex(m, q));
  }

  /** `first(where:)` on pixel equality, from index `k` on. */
  function FirstIndexFrom(m: seq<MapDot>, p: Pixel, k: nat): (r: Option<nat>)
    requires k <= |m|
    ensures r.None? <==> forall j :: k <= j < |m| ==> m[j].At() != p
    ensures r.Some? ==> && k <= r.value < |m| && m[r.value].At() == p
                        && forall j :: k <= j < r.value ==> m[j].At() != p
    decreases |m| - k
  {
    if k == |m| then None
    else if m[k].At() == p then Some(k)
    else FirstIndexFrom(m, p, k + 1)
  }

  /** `map.first(where: { $0.x == p.u && $0.y == p.v })`. */
  function FirstWhere(m: seq<MapDot>, p: Pixel): (r: Option<MapDot>)
    ensures r.None? <==> forall j :: 0 <= j < |m| ==> m[j].At() != p
    ensures r.Some? ==> exists i :: && 0 <= i < |m| && m[i] == r.value && m[i].At() == p
                                    && forall j :: 0 <= j < i ==> m[j].At() != p
  {
    match FirstIndexFrom(m, p, 0)
    case None => None
    case Some(i) => Some(m[i])
  }

  /** On a non-empty map the lookup of the reported pixel always succeeds,
      and it finds exactly the entry `min(by:)` chose: any earlier entry on
      the same pixel would have been as close and so chosen instead. */
  lemma LookupFindsNearest(c: GeoCoordinate, m: seq<MapDot>, width: nat, height: nat)
    requires |m| > 0
    ensures FirstWhere(m, ClosestDotPosition(c, m, width, height))
              == Some(m[NearestIndex(m, QueryPixel(c, width, height))])
  {
    var q := QueryPixel(c, width, height);
    var k := NearestIndex(m, q);
    var p := m[k].At();
    var r := FirstIndexFrom(m, p, 0);
    assert r.Some?;
  }
}

=== FILE: pixels.dfy ===
/** Pixel addressing into the world-map image and the land test applied to
    the colour read there (GlobeView.swift, `getPixelColor` and the threshold
    test of `setupDotGeometry`). */
module Pixels {

  /** An 8-bit channel value of the RGBA image buffer. */
  type Byte = b: int | 0 <= b < 256

  /** An integer pixel coordinate: `u` counts columns, `v` counts rows from the top. */
  datatype Pixel = Pixel(u: int, v: int)

  /** A position in the scene, left unrounded (the source stores it as three Floats). */
  datatype Vec3 = Vec3(x: real, y: real, z: real)

  /** One texture-map entry: where the dot sits on the sphere and which
      pixel of the world map it samples. */
  datatype MapDot = MapDot(position: Vec3, x: int, y: int) {
    function At(): Pixel { Pixel(x, y) }
  }

  /** The world-map image as an interleaved RGBA byte buffer, row by row. */
  datatype Image = Image(width: nat, height: nat, bytes: seq<Byte>) {
    predicate WellFormed() { |bytes| == 4 * width * height }
  }

  /** A colour with every channel normalised to [0, 1]. */
  datatype Rgba = Rgba(red: real, green: real, blue: real, alpha: real)

  predicate InImage(p: Pixel, width: int, height: int) {
    0 <= p.u < width && 0 <= p.v < height
  }

  /** The nearest pixel of a `width` × `height` image: each coordinate is
      clamped into its range, and a pixel already inside is left as it is. */
  function ClampPixel(p: Pixel, width: int, height: int): (r: Pixel)
    requires width > 0 && height > 0
    ensures InImage(r, width, height)
    ensures InImage(p, width, height) ==> r == p
    ensures 0 <= p.u < width && p.v >= height ==> r == Pixel(p.u, height - 1)
  {
    Pixel(if p.u < 0 then 0 else if p.u >= width then width - 1 else p.u,
          if p.v < 0 then 0 else if p.v >= height then height - 1 else p.v)
  }

  /** Byte offset of the red channel of pixel (x, y) in a buffer whose rows are `width` pixels wide. */
  function PixelOffset(width: int, x: int, y: int): int {
    ((width * y) + x) * 4
  }

  /** The channel threshold below which a pixel counts as land (near black). */
  const Threshold: real := 0.03

  /** All four channel reads of an in-image pixel stay inside the buffer. */
  lemma OffsetInBounds(width: int, height: int, x: int, y: int)
    requires 0 <= x < width && 0 <= y < height
    ensures 0 <= PixelOffset(width, x, y)
    ensures PixelOffset(width, x, y) + 3 < 4 * width * height
  {
    assert 0 <= width * y by { MulNonNegative(width, y); }
    assert width * y + x < width * (y + 1);
    assert width * (y + 1) <= width * height by { MulMonotone(width, y + 1, height); }
  }

  lemma MulNonNegative(a: int, b: int)
    requires 0 <= a && 0 <= b
    ensures 0 <= a * b
  {
  }

  lemma MulMonotone(a: int, b: int, c: int)
    requires 0 <= a && b <= c
    ensures a * b <= a * c
  {
    assert a * c - a * b == a * (c - b);
    MulNonNegative(a, c - b);
  }

  /** Row-major cell numbering inverts uniquely: the column and row of a
      cell index are determined by it. */
  lemma CellUnique(width: int, x1: int, y1: int, x2: int, y2: int)
    requires 0 <= x1 < width && 0 <= x2 < width
    requires width * y1 + x1 == width * y2 + x2
    ensures x1 == x2 && y1 == y2
  {
    if y1 < y2 {
      MulMonotone(width, y1 + 1, y2);
      assert false;
    } else if y2 < y1 {
      MulMonotone(width, y2 + 1, y1);
      assert false;
    }
  }

  /** Distinct pixels of the image never share a buffer offset. */
  lemma OffsetInjective(width: int, height: int, x1: int, y1: int, x2: int, y2: int)
    requires 0 <= x1 < width && 0 <= y1 < height
    requires 0 <= x2 < width && 0 <= y2 < height
    requires (x1, y1) != (x2, y2)
    ensures PixelOffset(width, x1, y1) != PixelOffset(width, x2, y2)
  {
    if PixelOffset(width, x1, y1) == PixelOffset(width, x2, y2) {
      CellUnique(width, x1, y1, x2, y2);
    }
  }

  /** The offset decodes back to its pixel: it is a multiple of four, and the
      cell index it names has column `x` and row `y`. */
  lemma OffsetDecodes(width: int, height: int, x: int, y: int)
    requires 0 <= x < width && 0 <= y < height
    ensures PixelOffset(width, x, y) % 4 == 0
    ensures (PixelOffset(width, x, y) / 4) % width == x
    ensures (PixelOffset(width, x, y) / 4) / width == y
  {
    var cell := width * y + x;
    assert PixelOffset(width, x, y) / 4 == cell;
    var q, r := cell / width, cell % width;
    assert cell == width * q + r;
    CellUnique(width, x, y, r, q);
  }

  /** The colour of pixel (x, y), every channel divided by 255. The source
      reads the buffer without a bounds check, so the pixel must lie inside
      the image and the buffer must hold all of it. */
  function PixelColor(img: Image, x: int, y: int): (c: Rgba)
    requires img.WellFormed()
    requires InImage(Pixel(x, y), img.width, img.height)
    ensures 0.0 <= c.red <= 1.0 && 0.0 <= c.green <= 1.0
    ensures 0.0 <= c.blue <= 1.0 && 0.0 <= c.alpha <= 1.0
  {
    OffsetInBounds(img.width, img.height, x, y);
    var i := PixelOffset(img.width, x, y);
    Rgba(img.bytes[i] as real / 255.0, img.bytes[i + 1] as real / 255.0,
         img.bytes[i + 2] as real / 255.0, img.bytes[i + 3] as real / 255.0)
  }

  /** Land in this asset's convention: red, green and blue all below the threshold. */
  predicate IsLand(c: Rgba) {
    c.red < Threshold && c.green < Threshold && c.blue < Threshold
  }

  /** A normalised channel is below 0.03 exactly when its byte is at most 7. */
  lemma ChannelBelowThreshold(b: Byte)
    ensures b as real / 255.0 < Threshold <==> b <= 7
  {
    if b <= 7 {
      assert b as real <= 7.0;
    } else {
      assert b as real >= 8.0;
    }
  }

  /** The land test on a pixel is the integer test "each colour byte is at
      most 7"; the alpha byte plays no part. */
  lemma LandIffDarkBytes(img: Image, x: int, y: int)
    requires img.WellFormed()
    requires InImage(Pixel(x, y), img.width, img.height)
    ensures var i := PixelOffset(img.width, x, y);
            && 0 <= i && i + 3 < |img.bytes|
            && (IsLand(PixelColor(img, x, y)) <==>
                  img.bytes[i] <= 7 && img.bytes[i + 1] <= 7 && img.bytes[i + 2] <= 7)
  {
    OffsetInBounds(img.width, img.height, x, y);
    var i := PixelOffset(img.width, x, y);
    ChannelBelowThreshold(img.bytes[i]);
    ChannelBelowThreshold(img.bytes[i + 1]);
    ChannelBelowThreshold(img.bytes[i + 2]);
  }
}

=== FILE: projection.dfy ===
/** The linear longitude/latitude to world-map mapping used for query points
    (GlobeView.swift, `getEquirectangularProjectionPosition`) and Swift's
    `Int(_:)` conversion of the resulting coordinates (`closestDotPosition`). */
module Projection {
  import opened Pixels

  /** A geographic coordinate in degrees. */
  datatype GeoCoordinate = GeoCoordinate(latitude: real, longitude: real)

  /** A position on the world-map image before truncation to whole pixels. */
  datatype ImagePoint = ImagePoint(x: real, y: real)

  /** Longitude -180 maps to the left edge, growing linearly to the right edge at +180. */
  function ProjectLongitude(longitude: real, width: real): real {
    ((longitude + 180.0) / 360.0) * width
  }

  /** Latitude 90 maps to the top row, growing linearly downwards to the bottom at -90. */
  function ProjectLatitude(latitude: real, height: real): real {
    (-(latitude - 90.0) / 180.0) * height
  }

  function EquirectangularPosition(c: GeoCoordinate, width: nat, height: nat): ImagePoint {
    ImagePoint(ProjectLongitude(c.longitude, width as real),
               ProjectLatitude(c.latitude, height as real))
  }

  /** The inverse of the linear map: an image point back to degrees. */
  function Unproject(p: ImagePoint, width: nat, height: nat): GeoCoordinate
    requires width > 0 && height > 0
  {
    GeoCoordinate(90.0 - p.y / height as real * 180.0,
                  p.x / width as real * 360.0 - 180.0)
  }

  /** Swift's `Int(_:)` on a floating value: truncation toward zero. */
  function TruncateToInt(r: real): (t: int)
    ensures 0.0 <= r ==> 0 <= t && t as real <= r < t as real + 1.0
    ensures r < 0.0 ==> t <= 0 && t as real - 1.0 < r <= t as real
  {
    if r >= 0.0 then r.Floor else -((-r).Floor)
  }

  /** The whole pixel `closestDotPosition` measures distances from. */
  function QueryPixel(c: GeoCoordinate, width: nat, height: nat): Pixel {
    var p := EquirectangularPosition(c, width, height);
    Pixel(TruncateToInt(p.x), TruncateToInt(p.y))
  }

  /** Longitude -180 lands on column 0, and the half-open longitude range
      [-180, 180) fills the half-open column range [0, width). */
  lemma LongitudeRange(longitude: real, width: real)
    requires width > 0.0
    ensures ProjectLongitude(-180.0, width) == 0.0
    ensures -180.0 <= longitude < 180.0 ==>
              0.0 <= ProjectLongitude(longitude, width) < width
  {
    if -180.0 <= longitude < 180.0 {
      ScaleBounds((longitude + 180.0) / 360.0, width);
    }
  }

  /** Latitude 90 lands on row 0 and latitude -90 on row `height`; every
      latitude in between lands inside [0, height]. */
  lemma LatitudeRange(latitude: real, height: real)
    requires height > 0.0
    ensures ProjectLatitude(90.0, height) == 0.0
    ensures ProjectLatitude(-90.0, height) == height
    ensures -90.0 <= latitude <= 90.0 ==>
              0.0 <= ProjectLatitude(latitude, height) <= height
  {
    if -90.0 <= latitude <= 90.0 {
      ScaleBounds(-(latitude - 90.0) / 180.0, height);
    }
  }

  /** Moving east moves right and moving north moves up, strictly. */
  lemma ProjectionMonotone(lo1: real, lo2: real, la1: real, la2: real, width: real, height: real)
    requires width > 0.0 && height > 0.0
    ensures lo1 < lo2 ==> ProjectLongitude(lo1, width) < ProjectLongitude(lo2, width)
    ensures la1 < la2 ==> ProjectLatitude(la1, height) > ProjectLatitude(la2, height)
  {
    if lo1 < lo2 {
      var f1, f2 := (lo1 + 180.0) / 360.0, (lo2 + 180.0) / 360.0;
      assert f1 < f2;
      assert f2 * width - f1 * width == (f2 - f1) * width;
    }
    if la1 < la2 {
      var g1, g2 := -(la1 - 90.0) / 180.0, -(la2 - 90.0) / 180.0;
      assert g2 < g1;
      assert g1 * height - g2 * height == (g1 - g2) * height;
    }
  }

  /** Projecting a coordinate and mapping the image point back recovers the
      coordinate exactly (before any truncation to whole pixels). */
  lemma ProjectionRoundTrip(c: GeoCoordinate, width: nat, height: nat)
    requires width > 0 && height > 0
    ensures Unproject(EquirectangularPosition(c, width, height), width, height) == c
  {
    CancelScale((c.longitude + 180.0) / 360.0, width as real);
    CancelScale(-(c.latitude - 90.0) / 180.0, height as real);
  }

  lemma ScaleBounds(f: real, s: real)
    requires 0.0 <= f <= 1.0 && s > 0.0
    ensures 0.0 <= f * s <= s
    ensures f < 1.0 ==> f * s < s
  {
    assert s - f * s == (1.0 - f) * s;
  }

  lemma CancelScale(a: real, w: real)
    requires w > 0.0
    ensures (a * w) / w == a
  {
  }

  /** A coordinate strictly north of the south pole, with longitude in
      [-180, 180), truncates to a pixel inside the image. */
  lemma QueryPixelInImage(c: GeoCoordinate, width: nat, height: nat)
    requires width > 0 && height > 0
    requires -90.0 < c.latitude <= 90.0 && -180.0 <= c.longitude < 180.0
    ensures InImage(QueryPixel(c, width, height), width, height)
  {
    LongitudeRange(c.longitude, width as real);
    LatitudeRange(c.latitude, height as real);
    var y := ProjectLatitude(c.latitude, height as real);
    ProjectionMonotone(0.0, 0.0, -90.0, c.latitude, width as real, height as real);
    assert y < height as real;
  }
}

=== FILE: sampler.dfy ===
/** The golden-angle sphere sampler behind `generateTextureMap`
    (GlobeView.swift). Only its exact part is modelled: the latitude row
    `y = 1 - 2i/(dots-1)`, the row formula of the projection at the poles,
    and the shape of the produced map. The cosine and sine of the golden
    angle and the asin/atan2 projection are parameters. */
module Sampler {
  import opened Pixels
  import opened Projection

  /** The trigonometric collaborators of the sampler, per sample index `i`:
      `horizontal(i)` is `(cos θ_i · r_i, sin θ_i · r_i)`, the x and z of the
      unit point on row `i`, and `project(i)` is the equirectangular pixel of
      that point. */
  datatype Trig = Trig(horizontal: nat -> (real, real), project: nat -> Pixel)

  /** The height of sample `i` on the unit sphere, from +1 at the north pole
      to -1 at the south pole. The source divides by `dots - 1`, which is
      0/0 for a single dot, so at least two dots are needed. */
  function LatitudeRow(i: nat, dots: nat): real
    requires dots >= 2
  {
    1.0 - (i as real / (dots - 1) as real) * 2.0
  }

  /** The row `equirectangularProjection` computes from θ = asin(y), with π
      given as a parameter: `Int(height / π · (π/2 - θ))`. */
  function ProjectRow(theta: real, height: nat, pi: real): int
    requires pi > 0.0
  {
    TruncateToInt(height as real / pi * (pi / 2.0 - theta))
  }

  /** The south-pole sample has y = -1, so θ = asin(-1) = -π/2 and the row
      is exactly `height`: one past the last row of the image. */
  lemma SouthPoleRowIsHeight(height: nat, pi: real)
    requires pi > 0.0
    ensures ProjectRow(-pi / 2.0, height, pi) == height
  {
    assert pi / 2.0 - (-pi / 2.0) == pi;
    assert height as real / pi * pi == height as real;
  }

  /** The i-th texture-map entry as the source builds it: the projected
      pixel is stored unchecked. */
  function SampleAsWritten(i: nat, dots: nat, radius: real, trig: Trig): MapDot
    requires dots >= 2
  {
    var (x, z) := trig.horizontal(i);
    var p := trig.project(i);
    MapDot(Vec3(radius * x, radius * LatitudeRow(i, dots), radius * z), p.u, p.v)
  }

  /** The i-th texture-map entry with its pixel clamped into the
      `width` × `height` image. */
  function Sample(i: nat, dots: nat, radius: real, trig: Trig, width: nat, height: nat): MapDot
    requires dots >= 2 && width > 0 && height > 0
  {
    var d := SampleAsWritten(i, dots, radius, trig);
    var p := ClampPixel(d.At(), width, height);
    MapDot(d.position, p.u, p.v)
  }

  /** The texture map exactly as `generateTextureMap` builds it. */
  function TextureMapAsWritten(dots: nat, radius: real, trig: Trig): seq<MapDot>
    requires dots != 1
  {
    seq(dots, i requires 0 <= i < dots => SampleAsWritten(i, dots, radius, trig))
  }

  /** The texture map for `dots` samples, in sampling order, with every pixel
      inside the image. No dots give an empty map; exactly one dot is
      excluded (see `LatitudeRow`). */
  function TextureMap(dots: nat, radius: real, trig: Trig, width: nat, height: nat): (m: seq<MapDot>)
    requires dots != 1 && width > 0 && height > 0
    ensures |m| == dots
    ensures forall i :: 0 <= i < |m| ==> InImage(m[i].At(), width, height)
  {
    seq(dots, i requires 0 <= i < dots => Sample(i, dots, radius, trig, width, height))
  }

  /** The source's loop: append one sample per index, in order. */
  method GenerateTextureMap(dots: nat, radius: real, trig: Trig, width: nat, height: nat)
      returns (positions: seq<MapDot>)
    requires dots != 1 && width > 0 && height > 0
    ensures positions == TextureMap(dots, radius, trig, width, height)
  {
    positions := [];
    var i := 0;
    while i < dots
      invariant 0 <= i <= dots
      invariant |positions| == i
      invariant forall k :: 0 <= k < i ==> positions[k] == Sample(k, dots, radius, trig, width, height)
    {
      positions := positions + [Sample(i, dots, radius, trig, width, height)];
      i := i + 1;
    }
  }

  /** As written, the south-pole entry lies one row below the image, and its
      pixel read starts past the end of a `4 · width · height` byte buffer. */
  lemma SouthPoleReadsPastBuffer(dots: nat, radius: real, trig: Trig, width: nat, height: nat, pi: real)
    requires dots >= 2 && pi > 0.0
    requires 0 <= trig.project(dots - 1).u
    requires trig.project(dots - 1).v == ProjectRow(-pi / 2.0, height, pi)
    ensures var d := TextureMapAsWritten(dots, radius, trig)[dots - 1];
            && d.y == height
            && !InImage(d.At(), width, height)
            && PixelOffset(width, d.x, d.y) >= 4 * width * height
  {
    SouthPoleRowIsHeight(height, pi);
    var d := TextureMapAsWritten(dots, radius, trig)[dots - 1];
    assert d.At() == trig.project(dots - 1);
    MulNonNegative(width, height);
  }

  /** With the clamp, the south-pole entry reads the last row of the image
      in the same column. */
  lemma SouthPoleClamped(dots: nat, radius: real, trig: Trig, width: nat, height: nat, pi: real)
    requires dots >= 2 && width > 0 && height > 0 && pi > 0.0
    requires 0 <= trig.project(dots - 1).u < width
    requires trig.project(dots - 1).v == ProjectRow(-pi / 2.0, height, pi)
    ensures var d := TextureMap(dots, radius, trig, width, height)[dots - 1];
            && d.At() == Pixel(trig.project(dots - 1).u, height - 1)
            && InImage(d.At(), width, height)
  {
    SouthPoleRowIsHeight(height, pi);
  }

  /** The clamp is the only difference between the two maps: positions are
      shared, and an entry whose projected pixel is already inside the image
      is the same in both. */
  lemma ClampOnlyOutside(dots: nat, radius: real, trig: Trig, width: nat, height: nat)
    requires dots != 1 && width > 0 && height > 0
    ensures forall i :: 0 <= i < dots ==>
              TextureMap(dots, radius, trig, width, height)[i].position
                == TextureMapAsWritten(dots, radius, trig)[i].position
    ensures forall i :: 0 <= i < dots && InImage(trig.project(i), width, height) ==>
              TextureMap(dots, radius, trig, width, height)[i]
                == TextureMapAsWritten(dots, radius, trig)[i]
  {
  }

  /** The first row is the north pole and the last the south pole. */
  lemma RowEndpoints(dots: nat)
    requires dots >= 2
    ensures LatitudeRow(0, dots) == 1.0
    ensures LatitudeRow(dots - 1, dots) == -1.0
  {
    var d := (dots - 1) as real;
    assert (dots - 1) as real / d == 1.0;
  }

  /** Rows strictly descend with the index... */
  lemma RowStrictlyDecreasing(i: nat, j: nat, dots: nat)
    requires dots >= 2 && i < j
    ensures LatitudeRow(i, dots) > LatitudeRow(j, dots)
  {
    var d := (dots - 1) as real;
    assert j as real / d - i as real / d == (j - i) as real / d;
  }

  /** ...and stay within [-1, 1] for every index of the map. */
  lemma RowInRange(i: nat, dots: nat)
    requires dots >= 2 && i < dots
    ensures -1.0 <= LatitudeRow(i, dots) <= 1.0
  {
    RowEndpoints(dots);
    if 0 < i {
      RowStrictlyDecreasing(0, i, dots);
    }
    if i < dots - 1 {
      RowStrictlyDecreasing(i, dots - 1, dots);
    }
  }

  /** A map of `dots` entries whose heights descend from `radius` to
      `-radius`, and whose pixels are the projected pixels of the samples,
      clamped into the image. */
  lemma TextureMapShape(dots: nat, radius: real, trig: Trig, width: nat, height: nat)
    requires dots >= 2 && radius > 0.0 && width > 0 && height > 0
    ensures var m := TextureMap(dots, radius, trig, width, height);
            && |m| == dots
            && m[0].position.y == radius
            && m[dots - 1].position.y == -radius
            && (forall i, j :: 0 <= i < j < dots ==> m[i].position.y > m[j].position.y)
            && (forall i :: 0 <= i < dots ==> m[i].At() == ClampPixel(trig.project(i), width, height))
  {
    var m := TextureMap(dots, radius, trig, width, height);
    RowEndpoints(dots);
    forall i, j | 0 <= i < j < dots
      ensures m[i].position.y > m[j].position.y
    {
      RowStrictlyDecreasing(i, j, dots);
      var yi, yj := LatitudeRow(i, dots), LatitudeRow(j, dots);
      assert radius * yi - radius * yj == radius * (yi - yj);
    }
  }

  /** When the horizontal part lies on the circle of its row
      (x² + z² = 1 - y², as cos² + sin² = 1 makes it), every position lies on
      the sphere of radius `radius`. */
  lemma SamplesOnSphere(dots: nat, radius: real, trig: Trig, width: nat, height: nat)
    requires dots >= 2 && width > 0 && height > 0
    requires forall i: nat :: i < dots ==>
               trig.horizontal(i).0 * trig.horizontal(i).0 + trig.horizontal(i).1 * trig.horizontal(i).1
                 == 1.0 - LatitudeRow(i, dots) * LatitudeRow(i, dots)
    ensures forall i :: 0 <= i < dots ==>
              var p := TextureMap(dots, radius, trig, width, height)[i].position;
              p.x * p.x + p.y * p.y + p.z * p.z == radius * radius
  {
    forall i | 0 <= i < dots
      ensures var p := TextureMap(dots, radius, trig, width, height)[i].position;
              p.x * p.x + p.y * p.y + p.z * p.z == radius * radius
    {
      var (x, z) := trig.horizontal(i);
      var y := LatitudeRow(i, dots);
      assert (radius * x) * (radius * x) + (radius * y) * (radius * y) + (radius * z) * (radius * z)
          == (radius * radius) * (x * x + y * y + z * z);
    }
  }
}

=== FILE: selection.dfy ===
/** The dot-selection loop of `setupDotGeometry` (GlobeView.swift): every
    texture-map entry is kept, in order, when it is the highlighted nearest
    dot or when the world map is near black (land) at its pixel. */
module Selection {
  import opened Wrappers
  import opened Pixels
  import opened Projection
  import opened Locator

  /** Which node the source builds for a kept entry: the torus marker for
      the highlighted dot, a plain sphere for a land dot. */
  datatype DotKind = Highlighted | Land

  datatype PlacedDot = PlacedDot(entry: MapDot, kind: DotKind)

  /** Every entry's pixel can be read from the image: the loop reads the
      colour of every entry, highlighted or not. */
  predicate AllInImage(m: seq<MapDot>, img: Image) {
    forall i :: 0 <= i < |m| ==> InImage(m[i].At(), img.width, img.height)
  }

  /** The decision the loop body makes for one entry; the highlight test
      comes first, so a highlighted entry is kept whatever its colour. */
  function Classify(d: MapDot, highlight: Option<Pixel>, img: Image): Option<DotKind>
    requires img.WellFormed() && InImage(d.At(), img.width, img.height)
  {
    var color := PixelColor(img, d.x, d.y);
    if highlight == Some(d.At()) then Some(Highlighted)
    else if IsLand(color) then Some(Land)
    else None
  }

  /** The kept entries of `m`, in texture-map order. */
  function SelectDots(m: seq<MapDot>, highlight: Option<Pixel>, img: Image): (r: seq<PlacedDot>)
    requires img.WellFormed() && AllInImage(m, img)
    ensures |r| <= |m|
    ensures forall k :: 0 <= k < |r| ==> r[k].entry in m
  {
    if |m| == 0 then []
    else
      var init := m[..|m| - 1];
      var last := m[|m| - 1];
      SelectDots(init, highlight, img) +
        match Classify(last, highlight, img)
        case Some(kind) => [PlacedDot(last, kind)]
        case None => []
  }

  /** The indices into `m` of the kept entries, in the same order. */
  function KeptIndices(m: seq<MapDot>, highlight: Option<Pixel>, img: Image): seq<nat>
    requires img.WellFormed() && AllInImage(m, img)
  {
    if |m| == 0 then []
    else
      var init := m[..|m| - 1];
      KeptIndices(init, highlight, img) +
        if Classify(m[|m| - 1], highlight, img).Some? then [|m| - 1] else []
  }

  /** Entry `d` is kept: it is the highlighted pixel or land. */
  predicate Keeps(d: MapDot, highlight: Option<Pixel>, img: Image)
    requires img.WellFormed() && InImage(d.At(), img.width, img.height)
  {
    highlight == Some(d.At()) || IsLand(PixelColor(img, d.x, d.y))
  }

  /** The k-th placed dot is entry `idx[k]` of the map, and the indices
      strictly increase: the selection keeps texture-map order. */
  lemma {:induction false} SelectionInOrder(m: seq<MapDot>, highlight: Option<Pixel>, img: Image)
    requires img.WellFormed() && AllInImage(m, img)
    ensures var out, idx := SelectDots(m, highlight, img), KeptIndices(m, highlight, img);
            && |idx| == |out| <= |m|
            && (forall k :: 0 <= k < |idx| ==> idx[k] < |m| && out[k].entry == m[idx[k]])
            && (forall k1, k2 :: 0 <= k1 < k2 < |idx| ==> idx[k1] < idx[k2])
  {
    if |m| > 0 {
      var n := |m| - 1;
      var init := m[..n];
      assert AllInImage(init, img);
      SelectionInOrder(init, highlight, img);
      var out0, idx0 := SelectDots(init, highlight, img), KeptIndices(init, highlight, img);
      var out, idx := SelectDots(m, highlight, img), KeptIndices(m, highlight, img);
      assert forall k :: 0 <= k < |idx0| ==> idx[k] == idx0[k] && out[k] == out0[k] && m[idx0[k]] == init[idx0[k]];
    }
  }

  /** Entry `i` is selected exactly when it is the highlighted pixel or land. */
  lemma {:induction false} SelectionMembership(m: seq<MapDot>, highlight: Option<Pixel>, img: Image)
    requires img.WellFormed() && AllInImage(m, img)
    ensures forall i :: 0 <= i < |m| ==>
              (i in KeptIndices(m, highlight, img) <==> Keeps(m[i], highlight, img))
  {
    if |m| > 0 {
      var n := |m| - 1;
      var init := m[..n];
      assert AllInImage(init, img);
      SelectionMembership(init, highlight, img);
      var idx0 := KeptIndices(init, highlight, img);
      var idx := KeptIndices(m, highlight, img);
      assert n !in idx0 by { KeptIndicesBelow(init, highlight, img); }
      forall i | 0 <= i < |m|
        ensures i in idx <==> Keeps(m[i], highlight, img)
      {
        if i < n {
          assert m[i] == init[i];
        }
      }
    }
  }

  lemma {:induction false} KeptIndicesBelow(m: seq<MapDot>, highlight: Option<Pixel>, img: Image)
    requires img.WellFormed() && AllInImage(m, img)
    ensures forall i :: i in KeptIndices(m, highlight, img) ==> i < |m|
  {
    if |m| > 0 {
      var init := m[..|m| - 1];
      assert AllInImage(init, img);
      KeptIndicesBelow(init, highlight, img);
    }
  }

  /** A placed dot is a highlight marker exactly when it sits on the
      highlighted pixel; every other placed dot is land. */
  lemma {:induction false} SelectionKinds(m: seq<MapDot>, highlight: Option<Pixel>, img: Image)
    requires img.WellFormed() && AllInImage(m, img)
    ensures forall p :: p in SelectDots(m, highlight, img) ==>
              InImage(p.entry.At(), img.width, img.height) &&
              (p.kind == Highlighted <==> highlight == Some(p.entry.At())) &&
              (p.kind == Land ==> IsLand(PixelColor(img, p.entry.x, p.entry.y)))
  {
    if |m| > 0 {
      var init := m[..|m| - 1];
      assert AllInImage(init, img);
      SelectionKinds(init, highlight, img);
    }
  }

  /** The source's loop over `0...textureMap.count - 1`, which traps on an
      empty map: it collects the kept entries and their positions. */
  method PlaceDots(m: seq<MapDot>, highlight: Option<Pixel>, img: Image)
      returns (positions: seq<Vec3>, placed: seq<PlacedDot>)
    requires |m| >= 1
    requires img.WellFormed() && AllInImage(m, img)
    ensures placed == SelectDots(m, highlight, img)
    ensures |positions| == |placed|
    ensures forall k :: 0 <= k < |placed| ==> positions[k] == placed[k].entry.position
  {
    positions, placed := [], [];
    for i := 0 to |m|
      invariant AllInImage(m[..i], img)
      invariant placed == SelectDots(m[..i], highlight, img)
      invariant |positions| == |placed|
      invariant forall k :: 0 <= k < |placed| ==> positions[k] == placed[k].entry.position
    {
      assert m[..i + 1][..i] == m[..i];
      var d := m[i];
      var color := PixelColor(img, d.x, d.y);
      if highlight == Some(d.At()) {
        positions := positions + [d.position];
        placed := placed + [PlacedDot(d, Highlighted)];
      } else if IsLand(color) {
        positions := positions + [d.position];
        placed := placed + [PlacedDot(d, Land)];
      }
    }
    assert m[..|m|] == m;
  }

  /** When the highlight is the nearest dot to a location, the nearest entry
      itself is placed, as a highlight marker, so the selection is never
      empty. */
  lemma NearestDotIsPlaced(c: GeoCoordinate, m: seq<MapDot>, img: Image)
    requires |m| > 0
    requires img.WellFormed() && AllInImage(m, img)
    ensures var q := QueryPixel(c, img.width, img.height);
            var h := Some(ClosestDotPosition(c, m, img.width, img.height));
            && NearestIndex(m, q) in KeptIndices(m, h, img)
            && PlacedDot(m[NearestIndex(m, q)], Highlighted) in SelectDots(m, h, img)
  {
    var q := QueryPixel(c, img.width, img.height);
    var p := ClosestDotPosition(c, m, img.width, img.height);
    var h := Some(p);
    var i := NearestIndex(m, q);
    ClosestIsFirstMinimal(c, m, img.width, img.height, i);
    assert p == m[i].At();
    SelectionMembership(m, h, img);
    assert Keeps(m[i], h, img);
    var idx := KeptIndices(m, h, img);
    var out := SelectDots(m, h, img);
    assert i in idx;
    SelectionInOrder(m, h, img);
    var k :| 0 <= k < |idx| && idx[k] == i;
    assert out[k].entry == m[i];
    SelectionKinds(m, h, img);
    assert out[k] in out;
    assert out[k].kind == Highlighted;
    assert out[k] == PlacedDot(m[i], Highlighted);
  }
}

=== FILE: wrappers.dfy ===
/** The optional values the globe controller works with: a cached texture map
    that may not have been built yet, a highlighted dot that exists only when a
    current location is known, and the result of a `first(where:)` lookup. */
module Wrappers {

  datatype Option<+T> = None | Some(value: T)
}
